=== FILE: README.md ===
# Zamda store and screen logic in Dafny

A functional model of the client-side state of the Zamda healthcare shop, a
React mobile front end. The model covers:

- the in-memory store of `AppContext.tsx`: user, cart, selected country,
  phone number and auth flag;
- the cart transitions `addToCart`, `removeFromCart`, `updateCartQuantity` and
  `clearCart`, and the derived `cartCount`;
- the pure decisions inside the screens: cart pricing, the cart badge, password
  and registration rules, the six-box OTP entry, phone capture, login, logout
  and profile display, and the dashboard's like flags and carousel.

Each store update is an atomic pure function from the old value to the new
one. A screen handler that also navigates returns a `Step(store, next)`; `next`
is the route it would go to (`Routes.Route`).

The central cart invariant is `ShoppingCart.Valid`: at most one line per
product id, and every quantity at least 1. Every cart operation preserves it.
Under it:

- `addToCart` bumps exactly one line or appends one;
- `cartCount` moves by exactly the units added or removed;
- each cart-screen button has a precise effect on the line sequence.

Modules follow the source files: `AppTypes` (src/types/app.ts), `ShoppingCart`
and `AppContext` (src/contexts/AppContext.tsx), `CartScreen`, `BottomNav`,
`RegisterScreen`, `OtpScreen`, `PhoneInputScreen`, `LoginScreen`,
`AccountScreen` and `DashboardScreen`. Three helper modules support them:
`Optional` (Option and Result), `Text` (digit filtering, character-range tests
and JavaScript `trim`) and `Routes`.

Details of the source that the model keeps as written:

- `addToCart` and `updateCartQuantity` use `map`, so they touch every line with
  the id. The model keeps that; uniqueness of ids is what narrows it to one line.
- An existing line keeps its own product fields when the product is added
  again. So the subtotal grows by the stored line's price, not by the price of
  the product passed in (`CartScreen.SubtotalAfterAddExisting`).
- Logout clears the user and the auth flag but keeps the cart, the country and
  the phone number (`AccountScreen.Logout`).
- The country picker of `LoginScreen.tsx` (lines 31-34 and 194) is the same
  code as on the phone screen. `LoginScreen.SelectCountry` delegates to
  `PhoneInputScreen.SelectCountry`, and `PhoneInputScreen.IsHighlighted` serves
  both screens.

## Model

| member | source | states |
|---|---|---|
| AppTypes.CountriesShape | src/types/app.ts:38-39 | the country list has 20 entries and the default first entry is NG with dial code +234 |
| AppTypes.CountryCodesDistinct | src/types/app.ts:38-59 | country codes are pairwise distinct |
| AppTypes.CodeIdentifiesCountry | src/types/app.ts:38-59 | two list entries with the same code are the same entry |
| AppTypes.DialCodesWellFormed | src/types/app.ts:39-58 | every dial code is "+" followed by at least one digit |
| ShoppingCart.IncrementLines | src/contexts/AppContext.tsx:34-38 | same length; each line keeps its product; lines with the id gain one unit, all others are unchanged |
| ShoppingCart.AddToCart | src/contexts/AppContext.tsx:30-42 | the result always has a line for the product; if the id was present, only matching lines change, by +1, and order and length are kept; otherwise the old cart is a prefix and one line of quantity 1 is appended |
| ShoppingCart.AddToCartExisting | src/contexts/AppContext.tsx:32-39 | with unique ids, adding a present product equals bumping exactly line k by one |
| ShoppingCart.AddToCartAbsent | src/contexts/AppContext.tsx:40 | adding an absent product appends a quantity-1 line at the end |
| ShoppingCart.AddToCartValid | src/contexts/AppContext.tsx:30-42 | addToCart preserves unique ids and positive quantities |
| ShoppingCart.AddToCartCount | src/contexts/AppContext.tsx:30-42 | on a cart with unique ids, cartCount grows by exactly 1 |
| ShoppingCart.AddTwiceFromEmpty | src/contexts/AppContext.tsx:30-42 | adding one product twice to an empty cart gives a single line of quantity 2 and count 2 |
| ShoppingCart.RemoveFromCart | src/contexts/AppContext.tsx:44-46 | no line with the id remains; a line is kept iff it was in the cart with another id; the cart never grows; an absent id leaves the cart unchanged |
| ShoppingCart.RemoveLine | src/contexts/AppContext.tsx:44-46 | with unique ids, removing line k's id gives exactly the cart without line k, other lines in their order |
| ShoppingCart.RemoveAbsent | src/contexts/AppContext.tsx:44-46 | removing an absent id is a no-op |
| ShoppingCart.RemoveAppend | src/contexts/AppContext.tsx:45 | removal distributes over concatenation, so kept lines stay in their original order |
| ShoppingCart.RemoveValid | src/contexts/AppContext.tsx:44-46 | removal preserves the cart invariant |
| ShoppingCart.RemoveLineCount | src/contexts/AppContext.tsx:44-46 | with unique ids, removing line k lowers cartCount by that line's quantity |
| ShoppingCart.SetQuantity | src/contexts/AppContext.tsx:53-57 | same length; each line keeps its product; matching lines get the new quantity, all others are unchanged |
| ShoppingCart.UpdateCartQuantity | src/contexts/AppContext.tsx:48-58 | a quantity of zero or less equals removeFromCart; a positive one changes only the matching lines' quantities, keeps the length, and never adds a line |
| ShoppingCart.UpdateLine | src/contexts/AppContext.tsx:53-57 | with unique ids, a positive update of line k changes that one quantity and nothing else, so the count moves by q minus the old quantity |
| ShoppingCart.UpdateValid | src/contexts/AppContext.tsx:48-57 | updateCartQuantity preserves the cart invariant for every quantity, negative ones included |
| ShoppingCart.ClearCart | src/contexts/AppContext.tsx:60 | the result is empty, satisfies the invariant and has count 0 |
| ShoppingCart.CartCount | src/contexts/AppContext.tsx:62 | with positive quantities the count is at least the number of lines, so it is 0 only for the empty cart |
| ShoppingCart.CartCountAppend | src/contexts/AppContext.tsx:62 | the count of a concatenation is the sum of the counts |
| ShoppingCart.CartCountReplace | src/contexts/AppContext.tsx:62 | replacing one line changes the count by the difference of the two quantities |
| ShoppingCart.CartCountDrop | src/contexts/AppContext.tsx:62 | dropping line k lowers the count by its quantity |
| AppContext.InitialStore | src/contexts/AppContext.tsx:24-28 | the initial store has no user, an empty valid cart with count 0, the first country (+234), an empty phone and is not authenticated |
| AppContext.UseApp | src/contexts/AppContext.tsx:88-94 | succeeds iff a provider exists and then returns its store; otherwise fails with the fixed message |
| AppContext.SetUser | src/contexts/AppContext.tsx:24 | the user is replaced wholesale and no other field changes |
| AppContext.SetSelectedCountry | src/contexts/AppContext.tsx:26 | the country is replaced and no other field changes |
| AppContext.SetPhoneNumber | src/contexts/AppContext.tsx:27 | the phone number is replaced and no other field changes |
| AppContext.SetIsAuthenticated | src/contexts/AppContext.tsx:28 | the auth flag is replaced and no other field changes |
| CartScreen.Subtotal | src/screens/CartScreen.tsx:14 | with positive quantities the subtotal is never negative |
| CartScreen.SubtotalAppend | src/screens/CartScreen.tsx:14 | the subtotal of a concatenation is the sum of the subtotals |
| CartScreen.SubtotalReplace | src/screens/CartScreen.tsx:14 | replacing one line changes the subtotal by the difference of price times quantity |
| CartScreen.SubtotalAfterAddNew | src/screens/CartScreen.tsx:14 | adding an absent product raises the subtotal by its price |
| CartScreen.SubtotalAfterAddExisting | src/screens/CartScreen.tsx:14 | adding a present product raises the subtotal by the price stored on its line |
| CartScreen.DeliveryFee | src/screens/CartScreen.tsx:15 | the fee is 1500 for a non-empty cart and 0 for an empty one |
| CartScreen.Total | src/screens/CartScreen.tsx:16 | total minus fee is the subtotal; an empty cart totals 0; a non-empty cart with positive quantities totals at least 1500 |
| CartScreen.PressMinus | src/screens/CartScreen.tsx:55 | on quantity 1 or less the line's id disappears; above 1 the line drops by one unit and the length is kept |
| CartScreen.MinusPressed | src/screens/CartScreen.tsx:55 | on a valid cart, minus at quantity 1 removes exactly line k and above 1 decrements only line k; validity is kept |
| CartScreen.MinusCount | src/screens/CartScreen.tsx:55 | on a valid cart, the minus button lowers `cartCount` by exactly one |
| CartScreen.OneUnitLess | src/contexts/AppContext.tsx:62 | dropping a one-unit line, or taking one unit off a larger line, lowers the count by one |
| CartScreen.PressPlus | src/screens/CartScreen.tsx:62 | for a non-negative quantity the line gains one unit and the length is kept |
| CartScreen.PlusPressed | src/screens/CartScreen.tsx:62 | on a valid cart, plus bumps only line k, equals addToCart of that line's product, keeps validity and adds 1 to the count |
| CartScreen.PressTrash | src/screens/CartScreen.tsx:69 | no line with the trashed id remains |
| CartScreen.TrashPressed | src/screens/CartScreen.tsx:69 | on a valid cart, trash removes exactly line k and its units, keeping validity |
| CartScreen.PressClearAll | src/screens/CartScreen.tsx:26 | "Clear all" leaves an empty cart whose total is 0 |
| BottomNav.Badge | src/components/BottomNav.tsx:44-46 | a badge exists iff the tab is Cart and the count is positive; it reads "9+" above 9, otherwise the single digit of the count |
| BottomNav.IsActive | src/components/BottomNav.tsx:24 | a tab is active when the location is its path, and an active tab of the bar is the only tab with that path |
| BottomNav.NavPathsDistinct | src/components/BottomNav.tsx:7-13 | the five tab paths are pairwise distinct |
| BottomNav.AtMostOneActive | src/components/BottomNav.tsx:24 | at most one tab is active for any location, and a tab's own path activates that tab only |
| BottomNav.BadgeOnlyOnCart | src/components/BottomNav.tsx:26 | only the Cart tab can show a badge, and it does for any positive count |
| BottomNav.BadgeTracksCart | src/components/BottomNav.tsx:44 | for a valid cart the badge shows iff the cart is non-empty |
| RegisterScreen.ValidatePassword | src/screens/auth/RegisterScreen.tsx:31-37 | a password is accepted iff it has at least 6 characters and contains an A-Z letter, an a-z letter and a digit |
| RegisterScreen.PasswordCriteria | src/screens/auth/RegisterScreen.tsx:39-44 | the checklist has four entries, in order: length of at least six, an uppercase letter, a lowercase letter, a digit; each is ticked exactly when the password has that property |
| RegisterScreen.AllAgreed | src/screens/auth/RegisterScreen.tsx:46 | true exactly when the privacy, terms and age boxes are all ticked |
| RegisterScreen.FullPhone | src/screens/auth/RegisterScreen.tsx:61 | the dial code followed by the entered number; with a well-formed dial code and a digits-only number it is "+" then digits only |
| RegisterScreen.CriteriaMatchValidation | src/screens/auth/RegisterScreen.tsx:39-44 | all four criteria are met iff validatePassword accepts the password |
| RegisterScreen.IsFormValid | src/screens/auth/RegisterScreen.tsx:46-54 | valid iff both names are non-empty, the password is accepted and equals its confirmation, a birth date is given and all three agreements are ticked; a valid form shows no mismatch message |
| RegisterScreen.MismatchShown | src/screens/auth/RegisterScreen.tsx:217 | the mismatch message shows iff the confirmation is non-empty and differs from the password |
| RegisterScreen.Submit | src/screens/auth/RegisterScreen.tsx:56-68 | an invalid form changes nothing; a valid one installs the form's user with phone = dial code + phone, an empty email as absent, the birth date, no avatar or address, signs in and goes to the dashboard, keeping cart, country and phone |
| RegisterScreen.GoogleSignUp | src/screens/auth/RegisterScreen.tsx:70-82 | without all agreements nothing changes; with them the fixed Google/User/user@gmail.com record is installed and auth is set |
| RegisterScreen.GoogleIgnoresForm | src/screens/auth/RegisterScreen.tsx:70-82 | Google sign-up succeeds whenever the form would, and both paths are no-ops without the agreements |
| OtpScreen.InitialOtp | src/screens/auth/OTPScreen.tsx:13-22 | the boxes are exactly six empty strings, which is well-formed and not complete; countdown 60, resend disabled; the mount effect focuses box 0 |
| OtpScreen.IsComplete | src/screens/auth/OTPScreen.tsx:81 | on well-formed boxes, complete means every box holds exactly one digit |
| OtpScreen.Join | src/screens/auth/OTPScreen.tsx:70 | the boxes read as one code, which is digits only when every box is |
| OtpScreen.HandleChange | src/screens/auth/OTPScreen.tsx:33-43 | input with a non-digit changes nothing; otherwise only box `index` changes, to the last character or ""; focus advances iff a digit was typed before the last box; well-formed boxes stay well-formed |
| OtpScreen.BackspaceFocus | src/screens/auth/OTPScreen.tsx:45-49 | Backspace in an empty box after the first moves focus to the previous box, otherwise focus stays |
| OtpScreen.PastedDigits | src/screens/auth/OTPScreen.tsx:53 | the pasted code is a prefix of the text's digits, at most 6 long, and all of them when there are fewer than 6 |
| OtpScreen.HandlePaste | src/screens/auth/OTPScreen.tsx:51-60 | boxes 0..n-1 take the n pasted digits, later boxes are unchanged, focus goes to min(n, 5) and well-formedness is kept |
| OtpScreen.Resend | src/screens/auth/OTPScreen.tsx:62-67 | countdown back to 60, resend disabled, all six boxes empty, and box 0 focused |
| OtpScreen.Tick | src/screens/auth/OTPScreen.tsx:24-31 | a positive countdown drops by one and nothing else changes; at zero resend is enabled; the countdown never goes negative |
| OtpScreen.TicksCountDown | src/screens/auth/OTPScreen.tsx:24-31 | after n steps the countdown is max(0, c - n), the boxes are unchanged, and resend is enabled once n exceeds c |
| OtpScreen.NoResendBeforeZero | src/screens/auth/OTPScreen.tsx:24-31 | resend stays disabled for as many steps as the countdown has seconds |
| OtpScreen.ResendCycle | src/screens/auth/OTPScreen.tsx:62-64 | after a resend, resend is still disabled after 60 steps and enabled, with countdown 0, after 61 |
| OtpScreen.JoinLength | src/screens/auth/OTPScreen.tsx:70-81 | with boxes of at most one character, the joined code is at most as long as the box count, and equally long iff every box is filled |
| OtpScreen.Verify | src/screens/auth/OTPScreen.tsx:69-79 | a code not 6 long does nothing; on the login path a full code signs in and goes to the dashboard; on the sign-up path it goes to registration and leaves the store unchanged |
| OtpScreen.VerifyGate | src/screens/auth/OTPScreen.tsx:81 | for well-formed boxes, verify acts iff the boxes are complete, and on the login path signs in iff complete |
| PhoneInputScreen.EditPhone | src/screens/auth/PhoneInputScreen.tsx:67 | the stored phone is the typed text's digits only, typed digits are kept verbatim, and nothing else changes |
| PhoneInputScreen.Continue | src/screens/auth/PhoneInputScreen.tsx:15-19 | continue moves to the code screen (sign-up path) iff the phone has at least 8 characters |
| PhoneInputScreen.ContinueDisabled | src/screens/auth/PhoneInputScreen.tsx:85 | the button is disabled exactly when continuing would do nothing |
| PhoneInputScreen.SelectCountry | src/screens/auth/PhoneInputScreen.tsx:21-24 | the chosen country becomes selected, the picker closes, and nothing else changes |
| PhoneInputScreen.IsHighlighted | src/screens/auth/PhoneInputScreen.tsx:113 | a row is highlighted when its code is the selection's code; when both come from the list, the highlighted row is the selection itself |
| PhoneInputScreen.SelectHighlightsOneRow | src/screens/auth/PhoneInputScreen.tsx:113-114 | after choosing list row k, exactly row k is highlighted |
| LoginScreen.EditPhone | src/screens/auth/LoginScreen.tsx:84-88 | the form phone is the typed text's digits only; email and password are unchanged |
| LoginScreen.IsFormValid | src/screens/auth/LoginScreen.tsx:22 | valid iff the phone and the password are both non-empty |
| LoginScreen.EmailIrrelevant | src/screens/auth/LoginScreen.tsx:22-29 | the email changes neither validity nor the effect of logging in |
| LoginScreen.HandleLogin | src/screens/auth/LoginScreen.tsx:24-29 | an invalid form changes nothing; a valid one only copies the phone into the store and goes to the code screen on the login path; auth and user are never changed |
| LoginScreen.SelectCountry | src/screens/auth/LoginScreen.tsx:31-34 | the chosen country becomes selected, the picker closes, and nothing else changes |
| AccountScreen.Logout | src/screens/AccountScreen.tsx:13-17 | after logout auth is false and the user is absent whatever the prior state; cart, country and phone are kept; the next screen is "/" |
| AccountScreen.LogoutIdempotent | src/screens/AccountScreen.tsx:13-17 | logging out twice equals logging out once |
| AccountScreen.FullName | src/screens/AccountScreen.tsx:20 | the shown name is the trim of first name, a space and last name whenever that is not blank, and "Not set" without a user or when both names are blank; it is never empty and has no whitespace at either end; for names with no outer whitespace it is exactly "first last" |
| AccountScreen.OrNotSet | src/screens/AccountScreen.tsx:21-24 | a present non-empty value is shown as is; an absent or empty one shows "Not set" |
| AccountScreen.AccountItems | src/screens/AccountScreen.tsx:19-25 | five rows: "Full Name" showing FullName, then the four detail rows; every value is non-empty |
| AccountScreen.DetailRows | src/screens/AccountScreen.tsx:21-24 | Phone, Email, Date of Birth and Address in that order; with a user each shows its field, or "Not set" when that field is missing or empty; without a user each is "Not set" |
| AccountScreen.AvatarInitial | src/screens/AccountScreen.tsx:39 | one character: the first name's first character, or "U" when there is no user or the first name is empty |
| DashboardScreen.CatalogIdsDistinct | src/screens/DashboardScreen.tsx:46-53 | the six catalog products have distinct ids |
| DashboardScreen.InitialLikes | src/screens/DashboardScreen.tsx:74-76 | the initial like map has exactly the ids of the products as keys |
| DashboardScreen.InitialLikesValues | src/screens/DashboardScreen.tsx:74-76 | with distinct ids, each product maps to its isLiked flag, a missing flag reading as false |
| DashboardScreen.CatalogInitialLikes | src/screens/DashboardScreen.tsx:46-53 | on the catalog, exactly the products flagged liked start liked |
| DashboardScreen.ToggleLike | src/screens/DashboardScreen.tsx:91-93 | the toggled id's liked state flips (a missing entry becomes liked), its key is added, and every other entry is unchanged |
| DashboardScreen.ToggleTwice | src/screens/DashboardScreen.tsx:91-93 | toggling one id twice restores every product's liked state |
| DashboardScreen.NextSlide | src/screens/DashboardScreen.tsx:86 | the next slide index is in [0, 3), i + 1 below the end and 0 after the last |
| DashboardScreen.CarouselCycles | src/screens/DashboardScreen.tsx:86 | three steps return any slide index to itself |
| DashboardScreen.AuthRedirect | src/screens/DashboardScreen.tsx:78-82 | a redirect to "/" happens iff the user is not authenticated |
| DashboardScreen.ShownCategories | src/screens/DashboardScreen.tsx:201 | exactly the first four categories are shown, in order |
| Text.DigitsOnly | src/screens/auth/PhoneInputScreen.tsx:67 | the result is all digits, no longer than the input, holds exactly the input's digit characters, and is the identity on all-digit input |
| Text.DigitsOnlyAppend | src/screens/auth/LoginScreen.tsx:87 | digit filtering distributes over concatenation, so digits keep their order |
| Text.ContainsInRange | src/screens/auth/RegisterScreen.tsx:33-35 | the range test is true iff some character lies in the range |
| Text.LastChar | src/screens/auth/OTPScreen.tsx:37 | "" for empty input, otherwise the one-character string of the last character |
| Text.TrimStart | src/screens/AccountScreen.tsx:20 | the result is a suffix of the input; everything dropped is whitespace; the result does not start with whitespace |
| Text.TrimEnd | src/screens/AccountScreen.tsx:20 | the result is a prefix of the input; everything dropped is whitespace; the result does not end with whitespace |
| Text.Trim | src/screens/AccountScreen.tsx:20 | the result is a slice s[a..b] of the input with only whitespace before a and after b; empty iff the input is all whitespace; otherwise no whitespace at either end; the identity on already-trimmed input |

## Left out

- Rendering, CSS classes, animations, icons, `MobileLayout`, and the display-only screens (splash, orders, settings): presentation only.
- Routing and provider wiring of src/App.tsx: navigation is kept only as the `Routes.Route` tag a handler returns.
- Timers (`setTimeout` and `setInterval` in the OTP countdown, carousel and splash screen): only the pure step functions are modelled, not time or cancellation.
- Focus management through `inputRefs`: only the box index a handler or the mount effect would focus is computed, not the DOM call.
- The agreement check boxes (`setAgreements` toggling one flag) and the carousel dots (`setCurrentSlide(index)`): single-field setters with no logic beyond the assignment.
- `toLocaleString` price formatting: a locale-dependent library call.
- React state batching and re-rendering: each store update is one atomic pure transition.
- The HTML `maxLength` attributes on the phone and OTP inputs: the browser enforces them, not the handlers.
- Flag glyphs, image imports and colour classes: display strings; the image field holds the asset file name.
- Numbers: quantities are unbounded integers and prices natural numbers. JavaScript's double-precision rounding and fractional quantities are not modelled.
- `CartItem` holds a `Product` plus a quantity instead of flattening the fields with an object spread: where the source reads `item.price` or `item.id`, the model reaches the product's fields through `product` (`line.product.price`, `line.Id()`).
- Show/hide password toggles and opening or dismissing the picker sheet without a choice: local boolean flags with no logic.
- The dashboard's greeting and address fallbacks ("User", a fixed street address) are not modelled. They are fallbacks of the same shape as `AccountScreen.OrNotSet`.
- RegisterScreen.ValidatePassword: counts the password's length in Unicode code points, because a Dafny `char` is a Unicode scalar value; `password.length` counts UTF-16 code units, so a character outside the Basic Multilingual Plane (an emoji, say) counts once here and twice in the source, and "Aa1" followed by two such characters is accepted by the source but not by the model.
- RegisterScreen.PasswordCriteria: the length criterion counts code points, not UTF-16 code units, for the same reason as `RegisterScreen.ValidatePassword`; the letter and digit criteria are unaffected.
- AccountScreen.AvatarInitial: takes the first code point of the first name, where `firstName[0]` takes the first UTF-16 code unit; for a first name starting outside the Basic Multilingual Plane the source shows a lone high surrogate and the model the whole character.
- Header name and email fallbacks on the account screen (`firstName || 'User'`, `email || 'No email set'`): display fallbacks of the same shape as `AccountScreen.OrNotSet`.

=== FILE: account_screen.dfy ===
/** src/screens/AccountScreen.tsx: logout and the profile rows. */
module AccountScreen {
  import opened Optional
  import opened AppTypes
  import opened Routes
  import opened AppContext
  import Text

  const NotSet := "Not set"

  /** `handleLogout`: signed out and no user, whatever the state before; the
      cart, country and phone number are left as they were. */
  function Logout(s: Store): (r: Step)
    ensures !r.store.isAuthenticated && r.store.user.None?
    ensures r.store.cart == s.cart && r.store.selectedCountry == s.selectedCountry
    ensures r.store.phoneNumber == s.phoneNumber
    ensures r.next == Some(Splash)
  {
    Step(SetUser(SetIsAuthenticated(s, false), None), Some(Splash))
  }

  /** Logging out twice is the same as logging out once. */
  lemma LogoutIdempotent(s: Store)
    ensures Logout(Logout(s).store) == Logout(s)
  {
  }

  /** `x || 'Not set'` on an optional string: an absent or empty value shows "Not set". */
  function OrNotSet(v: Option<string>): (shown: string)
    ensures |shown| > 0
    ensures v.Some? && v.value != "" ==> shown == v.value
    ensures v.None? || v.value == "" ==> shown == NotSet
  {
    if v.Some? && v.value != "" then v.value else NotSet
  }

  /** The names joined by a space are blank exactly when both names are. */
  lemma JoinedBlank(first: string, last: string)
    ensures Text.AllWhitespace(first + " " + last)
      <==> Text.AllWhitespace(first) && Text.AllWhitespace(last)
  {
    var joined := first + " " + last;
    if Text.AllWhitespace(joined) {
      forall k | 0 <= k < |first| ensures Text.IsWhitespace(first[k]) {
        assert joined[k] == first[k];
      }
      forall k | 0 <= k < |last| ensures Text.IsWhitespace(last[k]) {
        assert joined[|first| + 1 + k] == last[k];
      }
    }
    if Text.AllWhitespace(first) && Text.AllWhitespace(last) {
      forall k | 0 <= k < |joined| ensures Text.IsWhitespace(joined[k]) {
        if k < |first| {
          assert joined[k] == first[k];
        } else if k > |first| {
          assert joined[k] == last[k - |first| - 1];
        } else {
          assert joined[k] == ' ';
        }
      }
    }
  }

  /** Names without outer whitespace survive the trim joined as they are. */
  lemma JoinedTrimmed(first: string, last: string)
    ensures |first| > 0 && |last| > 0 && !Text.IsWhitespace(first[0])
      && !Text.IsWhitespace(last[|last| - 1])
      ==> Text.Trim(first + " " + last) == first + " " + last
  {
    var joined := first + " " + last;
    if |first| > 0 && |last| > 0 {
      assert joined[0] == first[0];
      assert joined[|joined| - 1] == last[|last| - 1];
    }
  }

  /** The "Full Name" row: the two names joined by a space and trimmed, or
      "Not set" when nothing but blanks remains. The shown text is never empty
      and never starts or ends with whitespace; for names that are non-empty
      and carry no outer whitespace it is exactly "first last". */
  function FullName(user: Option<User>): (shown: string)
    ensures |shown| > 0 && !Text.IsWhitespace(shown[0]) && !Text.IsWhitespace(shown[|shown| - 1])
    ensures user.None? ==> shown == NotSet
    ensures user.Some? && Text.AllWhitespace(user.value.firstName) && Text.AllWhitespace(user.value.lastName)
      ==> shown == NotSet
    ensures user.Some? && !(Text.AllWhitespace(user.value.firstName) && Text.AllWhitespace(user.value.lastName))
      ==> shown == Text.Trim(user.value.firstName + " " + user.value.lastName)
    ensures user.Some? && |user.value.firstName| > 0 && |user.value.lastName| > 0
      && !Text.IsWhitespace(user.value.firstName[0])
      && !Text.IsWhitespace(user.value.lastName[|user.value.lastName| - 1])
      ==> shown == user.value.firstName + " " + user.value.lastName
  {
    var first := if user.Some? then user.value.firstName else "";
    var last := if user.Some? then user.value.lastName else "";
    var joined := first + " " + last;
    JoinedBlank(first, last);
    JoinedTrimmed(first, last);
    var trimmed := Text.Trim(joined);
    if trimmed == "" then NotSet else trimmed
  }

  /** One row of the details card; `title` is the source's `label`, a
      reserved word in Dafny. */
  datatype AccountItem = AccountItem(title: string, value: string)

  /** The four detail rows after the name: Phone, Email, Date of Birth and
      Address, each showing the user's value, or "Not set" when there is no
      user or the value is missing or empty. */
  function DetailRows(user: Option<User>): (rows: seq<AccountItem>)
    ensures |rows| == 4
    ensures rows[0].title == "Phone" && rows[1].title == "Email"
    ensures rows[2].title == "Date of Birth" && rows[3].title == "Address"
    ensures user.None? ==> forall i :: 0 <= i < |rows| ==> rows[i].value == NotSet
    ensures user.Some? ==> rows[0].value == OrNotSet(Some(user.value.phone))
    ensures user.Some? ==> rows[1].value == OrNotSet(user.value.email)
    ensures user.Some? ==> rows[2].value == OrNotSet(user.value.dateOfBirth)
    ensures user.Some? ==> rows[3].value == OrNotSet(user.value.address)
    ensures forall i :: 0 <= i < |rows| ==> |rows[i].value| > 0
  {
    if user.None? then
      [
        AccountItem("Phone", NotSet),
        AccountItem("Email", NotSet),
        AccountItem("Date of Birth", NotSet),
        AccountItem("Address", NotSet)
      ]
    else
      var u := user.value;
      [
        AccountItem("Phone", OrNotSet(Some(u.phone))),
        AccountItem("Email", OrNotSet(u.email)),
        AccountItem("Date of Birth", OrNotSet(u.dateOfBirth)),
        AccountItem("Address", OrNotSet(u.address))
      ]
  }

  /** `accountItems`: the five rows in order -- Full Name, then the detail
      rows -- every one showing a non-empty value. */
  function AccountItems(user: Option<User>): (rows: seq<AccountItem>)
    ensures |rows| == 5
    ensures rows[0] == AccountItem("Full Name", FullName(user))
    ensures rows[1..] == DetailRows(user)
    ensures forall i :: 0 <= i < |rows| ==> |rows[i].value| > 0
  {
    [AccountItem("Full Name", FullName(user))] + DetailRows(user)
  }

  /** The avatar letter: the first character of the first name, else "U". */
  function AvatarInitial(user: Option<User>): (r: string)
    ensures |r| == 1
    ensures user.Some? && |user.value.firstName| > 0 ==> r[0] == user.value.firstName[0]
    ensures user.None? || user.value.firstName == "" ==> r == "U"
  {
    if user.Some? && user.value.firstName != "" then user.value.firstName[..1] else "U"
  }
}

=== FILE: app_context.dfy ===
/** The session half of src/contexts/AppContext.tsx: the store record, its
    initial value, the plain setters and the `useApp` accessor. The cart
    transitions live in ShoppingCart. */
module AppContext {
  import opened Optional
  import opened AppTypes
  import opened Routes
  import ShoppingCart

  datatype Store = Store(
    user: Option<User>,
    cart: ShoppingCart.Cart,
    selectedCountry: Country,
    phoneNumber: string,
    isAuthenticated: bool)
  {
    /** The derived `cartCount`, recomputed from the lines on every read. */
    function CartCount(): int { ShoppingCart.CartCount(cart) }
  }

  /** The store and the screen a handler moves to, if any. */
  datatype Step = Step(store: Store, next: Option<Route>)

  const ProviderMissing := "useApp must be used within an AppProvider"

  /** The state `AppProvider` starts with: nobody signed in, an empty cart,
      the first country of the list and no phone number. */
  function InitialStore(): (s: Store)
    ensures s.user.None? && !s.isAuthenticated
    ensures s.cart == [] && s.CartCount() == 0 && ShoppingCart.Valid(s.cart)
    ensures s.selectedCountry == Countries[0] && s.selectedCountry.dialCode == "+234"
    ensures s.phoneNumber == ""
  {
    Store(None, [], Countries[0], "", false)
  }

  /** `useApp()`: the store when a provider is mounted, the fixed error otherwise. */
  function UseApp(context: Option<Store>): (r: Result<Store>)
    ensures r.Ok? <==> context.Some?
    ensures context.Some? ==> r.value == context.value
    ensures context.None? ==> r.message == ProviderMissing
  {
    match context
    case Some(s) => Ok(s)
    case None => Err(ProviderMissing)
  }

  /** `setUser`: replaces the user wholesale; nothing else changes. */
  function SetUser(s: Store, u: Option<User>): (r: Store)
    ensures r.user == u
    ensures r.(user := s.user) == s
  {
    s.(user := u)
  }

  /** `setSelectedCountry`: replaces the selected country; nothing else changes. */
  function SetSelectedCountry(s: Store, c: Country): (r: Store)
    ensures r.selectedCountry == c
    ensures r.(selectedCountry := s.selectedCountry) == s
  {
    s.(selectedCountry := c)
  }

  /** `setPhoneNumber`: replaces the phone number; nothing else changes. */
  function SetPhoneNumber(s: Store, phone: string): (r: Store)
    ensures r.phoneNumber == phone
    ensures r.(phoneNumber := s.phoneNumber) == s
  {
    s.(phoneNumber := phone)
  }

  /** `setIsAuthenticated`: replaces the flag; nothing else changes. */
  function SetIsAuthenticated(s: Store, auth: bool): (r: Store)
    ensures r.isAuthenticated == auth
    ensures r.(isAuthenticated := s.isAuthenticated) == s
  {
    s.(isAuthenticated := auth)
  }
}

=== FILE: app_types.dfy ===
/** The records of src/types/app.ts and the static country list. */
module AppTypes {
  import opened Optional
  import Text

  /** A person known to the app: names and phone are required, the rest optional. */
  datatype User = User(
    firstName: string,
    lastName: string,
    phone: string,
    email: Option<string>,
    dateOfBirth: Option<string>,
    avatar: Option<string>,
    address: Option<string>)

  /** A catalog entry; prices are whole currency units. */
  datatype Product = Product(
    id: string,
    name: string,
    price: nat,
    image: string,
    category: string,
    isLiked: Option<bool>)

  /** A cart line: the product's fields plus a quantity (`CartItem extends Product`). */
  datatype CartItem = CartItem(product: Product, quantity: int) {
    function Id(): string { product.id }
  }

  /** A dashboard category tile (its colour classes are presentation only). */
  datatype Category = Category(id: string, name: string, icon: string)

  /** A selectable country; the flag glyph is a display string and is not kept. */
  datatype Country = Country(code: string, name: string, dialCode: string)

  const Countries: seq<Country> := [
    Country("NG", "Nigeria", "+234"),
    Country("GH", "Ghana", "+233"),
    Country("KE", "Kenya", "+254"),
    Country("ZA", "South Africa", "+27"),
    Country("EG", "Egypt", "+20"),
    Country("TZ", "Tanzania", "+255"),
    Country("UG", "Uganda", "+256"),
    Country("ET", "Ethiopia", "+251"),
    Country("RW", "Rwanda", "+250"),
    Country("SN", "Senegal", "+221"),
    Country("CI", "Ivory Coast", "+225"),
    Country("CM", "Cameroon", "+237"),
    Country("MA", "Morocco", "+212"),
    Country("DZ", "Algeria", "+213"),
    Country("TN", "Tunisia", "+216"),
    Country("ZW", "Zimbabwe", "+263"),
    Country("BW", "Botswana", "+267"),
    Country("NA", "Namibia", "+264"),
    Country("MZ", "Mozambique", "+258"),
    Country("AO", "Angola", "+244")
  ]

  /** A dial code is "+" followed by at least one digit. */
  predicate WellFormedDialCode(d: string) {
    |d| >= 2 && d[0] == '+' && Text.AllDigits(d[1..])
  }

  /** The list has twenty entries and starts with Nigeria, +234. */
  lemma CountriesShape()
    ensures |Countries| == 20
    ensures Countries[0].code == "NG" && Countries[0].dialCode == "+234"
  {
  }

  /** No two list entries share a code, so a code identifies an entry. */
  lemma CountryCodesDistinct()
    ensures forall i, j :: 0 <= i < j < |Countries| ==> Countries[i].code != Countries[j].code
  {
  }

  /** In any list whose codes are pairwise distinct, the code identifies the entry. */
  lemma DistinctCodesIdentify(cs: seq<Country>, x: Country, y: Country)
    requires forall i, j :: 0 <= i < j < |cs| ==> cs[i].code != cs[j].code
    ensures x in cs && y in cs && x.code == y.code ==> x == y
  {
    if x in cs && y in cs && x.code == y.code {
      var i :| 0 <= i < |cs| && cs[i] == x;
      var j :| 0 <= j < |cs| && cs[j] == y;
      assert i == j;
    }
  }

  /** Two entries of the country list with the same code are the same entry. */
  lemma CodeIdentifiesCountry(x: Country, y: Country)
    ensures x in Countries && y in Countries && x.code == y.code ==> x == y
  {
    CountryCodesDistinct();
    DistinctCodesIdentify(Countries, x, y);
  }

  /** Every dial code is "+" followed by digits. */
  lemma DialCodesWellFormed()
    ensures forall i :: 0 <= i < |Countries| ==> WellFormedDialCode(Countries[i].dialCode)
  {
  }
}

=== FILE: bottom_nav.dfy ===
/** src/components/BottomNav.tsx: which tab is highlighted and the cart badge. */
module BottomNav {
  import opened Optional
  import ShoppingCart

  /** One tab of the bar; `name` is the source's `label`, a reserved word in Dafny. */
  datatype NavItem = NavItem(path: string, name: string)

  const NavItems: seq<NavItem> := [
    NavItem("/dashboard", "Home"),
    NavItem("/orders", "Orders"),
    NavItem("/account", "Account"),
    NavItem("/settings", "Settings"),
    NavItem("/cart", "Cart")
  ]

  const CartIndex: nat := 4

  /** A tab is active when the current location is its path; an active tab
      of the bar is the only tab of the bar with that path. */
  function IsActive(pathname: string, item: NavItem): (active: bool)
    ensures active && item in NavItems ==>
      forall j :: 0 <= j < |NavItems| && NavItems[j].path == pathname ==> NavItems[j] == item
  {
    NavPathsDistinct();
    pathname == item.path
  }

  /** The badge a tab shows for the given `cartCount`: only the Cart tab has
      one, only for a positive count; counts above nine read "9+", and any
      other positive count is its own single decimal digit. */
  function Badge(item: NavItem, cartCount: int): (r: Option<string>)
    ensures r.Some? <==> item.name == "Cart" && cartCount > 0
    ensures r.Some? && cartCount > 9 ==> r.value == "9+"
    ensures r.Some? && cartCount <= 9 ==>
      |r.value| == 1 && r.value[0] as int - '0' as int == cartCount
  {
    if item.name == "Cart" && cartCount > 0 then
      Some(if cartCount > 9 then "9+" else [('0' as int + cartCount) as char])
    else None
  }

  /** The five tab paths are pairwise distinct. */
  lemma NavPathsDistinct()
    ensures |NavItems| == 5
    ensures forall i, j :: 0 <= i < j < |NavItems| ==> NavItems[i].path != NavItems[j].path
  {
  }

  /** Whatever the location, at most one tab is active, and visiting a tab's
      path activates that tab alone. */
  lemma AtMostOneActive(pathname: string)
    ensures forall i, j ::
      (0 <= i < |NavItems| && 0 <= j < |NavItems| &&
       IsActive(pathname, NavItems[i]) && IsActive(pathname, NavItems[j])) ==> i == j
    ensures forall i, j :: 0 <= i < |NavItems| && 0 <= j < |NavItems| ==>
      (IsActive(NavItems[i].path, NavItems[j]) <==> i == j)
  {
    NavPathsDistinct();
  }

  /** Only the Cart tab can carry a badge, and it does whenever the count is positive. */
  lemma BadgeOnlyOnCart(cartCount: int)
    ensures forall i :: 0 <= i < |NavItems| && Badge(NavItems[i], cartCount).Some? ==> i == CartIndex
    ensures cartCount > 0 ==> Badge(NavItems[CartIndex], cartCount).Some?
  {
  }

  /** For a cart that keeps the store invariant, the Cart tab shows a badge
      exactly when the cart has a line. */
  lemma BadgeTracksCart(cart: ShoppingCart.Cart)
    requires ShoppingCart.Valid(cart)
    ensures Badge(NavItems[CartIndex], ShoppingCart.CartCount(cart)).Some? <==> |cart| > 0
  {
  }
}

=== FILE: cart_screen.dfy ===
/** src/screens/CartScreen.tsx: the price summary and the per-line buttons. */
module CartScreen {
  import opened AppTypes
  import opened ShoppingCart

  const DeliveryCharge: nat := 1500

  /** `cart.reduce((sum, item) => sum + item.price * item.quantity, 0)`. */
  function Subtotal(cart: Cart): (r: int)
    ensures PositiveQuantities(cart) ==> r >= 0
  {
    if |cart| == 0 then 0
    else
      assert PositiveQuantities(cart) ==> PositiveQuantities(cart[1..]) by {
        if PositiveQuantities(cart) {
          forall i | 0 <= i < |cart[1..]| ensures cart[1..][i].quantity >= 1 {
            assert cart[1..][i] == cart[i + 1];
          }
        }
      }
      cart[0].product.price * cart[0].quantity + Subtotal(cart[1..])
  }

  /** A flat fee for any non-empty cart, nothing for an empty one. */
  function DeliveryFee(cart: Cart): (r: nat)
    ensures |cart| > 0 ==> r == DeliveryCharge
    ensures |cart| == 0 ==> r == 0
  {
    if |cart| > 0 then DeliveryCharge else 0
  }

  /** Subtotal plus delivery: zero for an empty cart, and at least the
      delivery charge for any non-empty cart of positive quantities. */
  function Total(cart: Cart): (r: int)
    ensures |cart| == 0 ==> r == 0
    ensures |cart| > 0 && PositiveQuantities(cart) ==> r >= DeliveryCharge
    ensures r - DeliveryFee(cart) == Subtotal(cart)
  {
    Subtotal(cart) + DeliveryFee(cart)
  }

  lemma {:induction false} SubtotalAppend(a: Cart, b: Cart)
    ensures Subtotal(a + b) == Subtotal(a) + Subtotal(b)
    decreases |a|
  {
    if |a| == 0 {
      assert a + b == b;
    } else {
      assert (a + b)[1..] == a[1..] + b;
      SubtotalAppend(a[1..], b);
    }
  }

  /** Replacing one line changes the subtotal by the difference of the line values. */
  lemma {:induction false} SubtotalReplace(cart: Cart, k: nat, line: CartItem)
    requires k < |cart|
    ensures Subtotal(cart[k := line]) ==
      Subtotal(cart) - cart[k].product.price * cart[k].quantity + line.product.price * line.quantity
    decreases k
  {
    if k > 0 {
      assert cart[k := line][1..] == cart[1..][k - 1 := line];
      SubtotalReplace(cart[1..], k - 1, line);
    } else {
      assert cart[k := line][1..] == cart[1..];
    }
  }

  /** Adding a product whose line is absent raises the subtotal by its price. */
  lemma SubtotalAfterAddNew(cart: Cart, p: Product)
    requires !HasLine(cart, p.id)
    ensures Subtotal(AddToCart(cart, p)) == Subtotal(cart) + p.price
  {
    SubtotalAppend(cart, [CartItem(p, 1)]);
    assert [CartItem(p, 1)][1..] == [];
  }

  /** Adding a product whose line `k` is present raises the subtotal by the
      price already stored on that line, not by the price of the product
      passed in (`addToCart` keeps the old line's fields). */
  lemma SubtotalAfterAddExisting(cart: Cart, p: Product, k: nat)
    requires UniqueIds(cart)
    requires k < |cart| && cart[k].Id() == p.id
    ensures Subtotal(AddToCart(cart, p)) == Subtotal(cart) + cart[k].product.price
  {
    var line := cart[k];
    var bumped := line.(quantity := line.quantity + 1);
    var before := line.product.price * line.quantity;
    var after := line.product.price * bumped.quantity;
    assert after == before + line.product.price;
    assert AddToCart(cart, p) == cart[k := bumped] by {
      AddToCartExisting(cart, p, k);
    }
    assert Subtotal(cart[k := bumped]) == Subtotal(cart) - before + after by {
      SubtotalReplace(cart, k, bumped);
    }
  }

  /** The minus button of line `k`: `updateCartQuantity(item.id, item.quantity - 1)`. */
  function PressMinus(cart: Cart, k: nat): (r: Cart)
    requires k < |cart|
    ensures cart[k].quantity <= 1 ==> !HasLine(r, cart[k].Id())
    ensures cart[k].quantity > 1 ==> |r| == |cart| && r[k].quantity == cart[k].quantity - 1
  {
    UpdateCartQuantity(cart, cart[k].Id(), cart[k].quantity - 1)
  }

  /** The plus button of line `k`: `updateCartQuantity(item.id, item.quantity + 1)`. */
  function PressPlus(cart: Cart, k: nat): (r: Cart)
    requires k < |cart|
    ensures cart[k].quantity >= 0 ==> |r| == |cart| && r[k].quantity == cart[k].quantity + 1
  {
    UpdateCartQuantity(cart, cart[k].Id(), cart[k].quantity + 1)
  }

  /** The trash button of line `k`: `removeFromCart(item.id)`. */
  function PressTrash(cart: Cart, k: nat): (r: Cart)
    requires k < |cart|
    ensures !HasLine(r, cart[k].Id())
  {
    RemoveFromCart(cart, cart[k].Id())
  }

  /** "Clear all": `clearCart()`. */
  function PressClearAll(cart: Cart): (r: Cart)
    ensures r == [] && Total(r) == 0
  {
    ClearCart(cart)
  }

  /** On a valid cart, minus on a line of quantity 1 removes exactly that
      line, and on a larger quantity lowers only that line by one. */
  lemma MinusPressed(cart: Cart, k: nat)
    requires Valid(cart) && k < |cart|
    ensures cart[k].quantity == 1 ==> PressMinus(cart, k) == cart[..k] + cart[k + 1..]
    ensures cart[k].quantity > 1 ==>
      PressMinus(cart, k) == cart[k := cart[k].(quantity := cart[k].quantity - 1)]
    ensures Valid(PressMinus(cart, k))
  {
    if cart[k].quantity == 1 {
      RemoveLine(cart, k);
    } else {
      UpdateLine(cart, k, cart[k].quantity - 1);
    }
    UpdateValid(cart, cart[k].Id(), cart[k].quantity - 1);
  }

  /** On a valid cart, the minus button takes exactly one unit off the count. */
  lemma MinusCount(cart: Cart, k: nat)
    requires Valid(cart) && k < |cart|
    ensures CartCount(PressMinus(cart, k)) == CartCount(cart) - 1
  {
    MinusPressed(cart, k);
    OneUnitLess(cart, k, PressMinus(cart, k));
  }

  /** Dropping line `k` when it holds one unit, or taking one unit off it
      otherwise, lowers the count by one. */
  lemma OneUnitLess(cart: Cart, k: nat, r: Cart)
    requires k < |cart| && cart[k].quantity >= 1
    requires cart[k].quantity == 1 ==> r == cart[..k] + cart[k + 1..]
    requires cart[k].quantity > 1 ==> r == cart[k := cart[k].(quantity := cart[k].quantity - 1)]
    ensures CartCount(r) == CartCount(cart) - 1
  {
    if cart[k].quantity == 1 {
      CartCountDrop(cart, k);
    } else {
      CartCountReplace(cart, k, cart[k].(quantity := cart[k].quantity - 1));
    }
  }


  /** On a valid cart, plus raises only line `k` by one, which is exactly
      what adding that line's product again does. */
  lemma PlusPressed(cart: Cart, k: nat)
    requires Valid(cart) && k < |cart|
    ensures PressPlus(cart, k) == cart[k := cart[k].(quantity := cart[k].quantity + 1)]
    ensures PressPlus(cart, k) == AddToCart(cart, cart[k].product)
    ensures Valid(PressPlus(cart, k))
    ensures CartCount(PressPlus(cart, k)) == CartCount(cart) + 1
  {
    UpdateLine(cart, k, cart[k].quantity + 1);
    AddToCartExisting(cart, cart[k].product, k);
    AddToCartValid(cart, cart[k].product);
    AddToCartCount(cart, cart[k].product);
  }

  /** On a valid cart, trash removes exactly line `k` and its units. */
  lemma TrashPressed(cart: Cart, k: nat)
    requires Valid(cart) && k < |cart|
    ensures PressTrash(cart, k) == cart[..k] + cart[k + 1..]
    ensures CartCount(PressTrash(cart, k)) == CartCount(cart) - cart[k].quantity
    ensures Valid(PressTrash(cart, k))
  {
    RemoveLine(cart, k);
    RemoveLineCount(cart, k);
    RemoveValid(cart, cart[k].Id());
  }
}

=== FILE: dashboard_screen.dfy ===
/** src/screens/DashboardScreen.tsx: the static catalog, the like flags,
    the banner carousel step and the sign-in redirect. */
module DashboardScreen {
  import opened Optional
  import opened AppTypes
  import opened Routes

  const Categories: seq<Category> := [
    Category("1", "General", "stethoscope"),
    Category("2", "Pharmacy", "pill"),
    Category("3", "Vaccines", "syringe"),
    Category("4", "Lab Tests", "test-tube"),
    Category("5", "Mental", "brain"),
    Category("6", "Orthopedic", "bone"),
    Category("7", "Optical", "eye"),
    Category("8", "Pediatric", "baby")
  ]

  const Catalog: seq<Product> := [
    Product("1", "Paracetamol 500mg", 2500, "para.jpg", "Pain Relief", Some(false)),
    Product("2", "Vitamin C 1000mg", 4500, "vitamin-c.webp", "Vitamins", Some(true)),
    Product("3", "Ibuprofen 400mg", 3200, "ibru.jpg", "Pain Relief", Some(false)),
    Product("4", "Multivitamins", 8500, "multi.webp", "Vitamins", Some(false)),
    Product("5", "Cough Syrup", 3800, "cough.jpg", "Cold & Flu", Some(true)),
    Product("6", "Hand Sanitizer", 1500, "sanitizer.webp", "Hygiene", Some(false))
  ]

  const SlideCount: nat := 3
  const ShownCategoryCount: nat := 4

  predicate DistinctIds(ps: seq<Product>) {
    forall i, j :: 0 <= i < j < |ps| ==> ps[i].id != ps[j].id
  }

  /** The catalog ids are pairwise distinct, so a like flag or a cart line
      identifies one product. */
  lemma CatalogIdsDistinct()
    ensures |Catalog| == 6 && DistinctIds(Catalog)
  {
  }

  type Likes = map<string, bool>

  predicate InCatalog(ps: seq<Product>, id: string) {
    exists i :: 0 <= i < |ps| && ps[i].id == id
  }

  /** `likedProducts[id]` read as a condition: a missing entry counts as not liked. */
  predicate IsLiked(m: Likes, id: string) {
    id in m && m[id]
  }

  /** The initial `likedProducts`: `products.reduce` that sends each id to its
      `isLiked` flag, missing flags read as false. */
  function InitialLikes(ps: seq<Product>): (m: Likes)
    ensures forall id :: id in m <==> InCatalog(ps, id)
    ensures forall i :: 0 <= i < |ps| ==> ps[i].id in m
    decreases |ps|
  {
    if |ps| == 0 then map[]
    else
      var p := ps[0];
      var rest := InitialLikes(ps[1..]);
      assert forall id :: InCatalog(ps, id) <==> id == p.id || InCatalog(ps[1..], id) by {
        forall id | InCatalog(ps, id) && id != p.id ensures InCatalog(ps[1..], id) {
          var i :| 0 <= i < |ps| && ps[i].id == id;
          assert ps[1..][i - 1] == ps[i];
        }
        forall id | InCatalog(ps[1..], id) ensures InCatalog(ps, id) {
          var i :| 0 <= i < |ps[1..]| && ps[1..][i].id == id;
          assert ps[i + 1] == ps[1..][i];
        }
      }
      // the spread `{ ...acc, [p.id]: … }` lets a later product win
      if p.id in rest then rest else rest[p.id := p.isLiked.ValueOr(false)]
  }

  /** With distinct ids, each product's entry is its own `isLiked` flag,
      a missing flag reading as false. */
  lemma {:induction false} InitialLikesValues(ps: seq<Product>)
    requires DistinctIds(ps)
    ensures forall i :: 0 <= i < |ps| ==> InitialLikes(ps)[ps[i].id] == ps[i].isLiked.ValueOr(false)
    decreases |ps|
  {
    if |ps| > 0 {
      var tail := ps[1..];
      assert DistinctIds(tail) by {
        forall i, j | 0 <= i < j < |tail| ensures tail[i].id != tail[j].id {
          assert tail[i] == ps[i + 1] && tail[j] == ps[j + 1];
        }
      }
      InitialLikesValues(tail);
      var rest := InitialLikes(tail);
      assert ps[0].id !in rest;
      forall i | 0 <= i < |ps| ensures InitialLikes(ps)[ps[i].id] == ps[i].isLiked.ValueOr(false) {
        if i > 0 {
          assert ps[i] == tail[i - 1];
        }
      }
    }
  }

  /** On the catalog, exactly the products flagged as liked start out liked. */
  lemma CatalogInitialLikes()
    ensures forall i :: 0 <= i < |Catalog| ==>
      (IsLiked(InitialLikes(Catalog), Catalog[i].id) <==> Catalog[i].isLiked == Some(true))
  {
    CatalogIdsDistinct();
    InitialLikesValues(Catalog);
  }

  /** `toggleLike(id)`: that id's flag flips (a missing flag becomes true);
      every other entry is untouched. */
  function ToggleLike(m: Likes, id: string): (r: Likes)
    ensures IsLiked(r, id) == !IsLiked(m, id)
    ensures r.Keys == m.Keys + {id}
    ensures forall k :: k in m && k != id ==> r[k] == m[k]
  {
    m[id := !IsLiked(m, id)]
  }

  /** Toggling the same product twice restores every product's liked state. */
  lemma ToggleTwice(m: Likes, id: string)
    ensures forall k :: IsLiked(ToggleLike(ToggleLike(m, id), id), k) == IsLiked(m, k)
  {
  }

  /** The carousel's interval step `(prev + 1) % bannerSlides.length`. */
  function NextSlide(i: nat): (r: nat)
    ensures r < SlideCount
    ensures i + 1 < SlideCount ==> r == i + 1
    ensures i + 1 == SlideCount ==> r == 0
  {
    (i + 1) % SlideCount
  }

  /** Three steps bring any shown slide back to itself. */
  lemma CarouselCycles(i: nat)
    requires i < SlideCount
    ensures NextSlide(NextSlide(NextSlide(i))) == i
  {
  }

  /** The sign-in guard: a signed-out visitor is sent to "/". */
  function AuthRedirect(isAuthenticated: bool): (next: Option<Route>)
    ensures next.Some? <==> !isAuthenticated
    ensures next.Some? ==> next.value == Splash
  {
    if !isAuthenticated then Some(Splash) else None
  }

  /** `categories.slice(0, 4)`: the first four categories, in order. */
  function ShownCategories(): (r: seq<Category>)
    ensures |r| == ShownCategoryCount
    ensures forall i :: 0 <= i < |r| ==> r[i] == Categories[i]
  {
    Categories[..ShownCategoryCount]
  }
}

=== FILE: login_screen.dfy ===
/** src/screens/auth/LoginScreen.tsx: the login form and its submit handler. */
module LoginScreen {
  import opened Optional
  import opened AppTypes
  import opened Routes
  import opened AppContext
  import PhoneInputScreen
  import Text

  datatype LoginForm = LoginForm(phone: string, email: string, password: string)

  /** The phone field's `onChange`: the form keeps only the digits typed. */
  function EditPhone(f: LoginForm, typed: string): (r: LoginForm)
    ensures Text.AllDigits(r.phone)
    ensures r.phone == Text.DigitsOnly(typed)
    ensures r.email == f.email && r.password == f.password
  {
    f.(phone := Text.DigitsOnly(typed))
  }

  /** `isFormValid`: a phone and a password; the email plays no part. */
  function IsFormValid(f: LoginForm): (ok: bool)
    ensures ok <==> |f.phone| > 0 && |f.password| > 0
  {
    f.phone != "" && f.password != ""
  }

  /** Changing the optional email never changes validity or what login does. */
  lemma EmailIrrelevant(s: Store, f: LoginForm, e: string)
    ensures IsFormValid(f.(email := e)) == IsFormValid(f)
    ensures HandleLogin(s, f.(email := e)) == HandleLogin(s, f)
  {
  }

  /** `handleLogin`: a valid form copies its phone into the store and goes to
      the code screen on the login path; it does not sign in by itself. An
      invalid form changes nothing. */
  function HandleLogin(s: Store, f: LoginForm): (r: Step)
    ensures !IsFormValid(f) ==> r == Step(s, None)
    ensures IsFormValid(f) ==>
      r.store == s.(phoneNumber := f.phone) && r.next == Some(Otp(true))
    ensures r.store.isAuthenticated == s.isAuthenticated && r.store.user == s.user
  {
    if IsFormValid(f) then Step(SetPhoneNumber(s, f.phone), Some(Otp(true)))
    else Step(s, None)
  }

  /** `selectCountry`: the same behaviour as on the phone entry screen. */
  function SelectCountry(s: Store, c: Country): (r: PhoneInputScreen.PickerStep)
    ensures r.store.selectedCountry == c && !r.pickerOpen
    ensures r.store.(selectedCountry := s.selectedCountry) == s
  {
    PhoneInputScreen.SelectCountry(s, c)
  }
}

=== FILE: optional.dfy ===
/** Optional values and results with an error message, used wherever the
    source has an optional field (`email?: string`), a nullable value
    (`User | null`) or a thrown error. */
module Optional {

  /** A value that may be missing: `undefined` or `null` in the source. */
  datatype Option<+T> = None | Some(value: T) {

    /** The stored value, or `fallback` when there is none (`x ?? fallback`). */
    function ValueOr(fallback: T): T {
      if Some? then value else fallback
    }
  }

  /** A computation that produced a value or failed with a message. */
  datatype Result<+T> = Ok(value: T) | Err(message: string)
}

=== FILE: otp_screen.dfy ===
/** src/screens/auth/OTPScreen.tsx: the six one-digit boxes, the resend
    countdown and the verify gate. Focus moves are kept as the index the
    handler would focus; the DOM calls themselves are not modelled. */
module OtpScreen {
  import opened Optional
  import opened Routes
  import opened AppContext
  import Text

  const SlotCount: nat := 6
  const LastSlot: nat := 5
  const ResendSeconds: int := 60

  type Slots = seq<string>

  const EmptySlots: Slots := ["", "", "", "", "", ""]

  /** A box holds nothing or exactly one digit. */
  predicate WellFormedSlot(slot: string) {
    slot == "" || (|slot| == 1 && Text.IsDigit(slot[0]))
  }

  predicate WellFormed(slots: Slots) {
    |slots| == SlotCount && forall i :: 0 <= i < |slots| ==> WellFormedSlot(slots[i])
  }

  /** The screen's local state. */
  datatype OtpState = OtpState(slots: Slots, countdown: int, canResend: bool)

  /** The result of a key press or paste: the new boxes and the box to focus, if any. */
  datatype Edit = Edit(slots: Slots, focus: Option<nat>)

  /** A state together with the box a handler or effect focuses. */
  datatype Focused = Focused(state: OtpState, focus: nat)

  /** The state the screen mounts with: six empty boxes and a full countdown;
      the mount effect focuses the first box. */
  function InitialOtp(): (m: Focused)
    ensures m.state.slots == EmptySlots && |m.state.slots| == SlotCount
    ensures WellFormed(m.state.slots) && !IsComplete(m.state.slots)
    ensures m.state.countdown == ResendSeconds && !m.state.canResend
    ensures m.focus == 0
  {
    assert EmptySlots[0] == "";
    Focused(OtpState(EmptySlots, ResendSeconds, false), 0)
  }

  /** `handleChange(index, value)`: input with a non-digit is ignored;
      otherwise box `index` keeps the last character typed (or becomes empty)
      and focus moves on when something was typed in a box before the last. */
  function HandleChange(slots: Slots, index: nat, value: string): (r: Edit)
    requires index < |slots|
    ensures !Text.AllDigits(value) ==> r == Edit(slots, None)
    ensures Text.AllDigits(value) ==>
      && |r.slots| == |slots|
      && r.slots[index] == Text.LastChar(value)
      && (forall j :: 0 <= j < |slots| && j != index ==> r.slots[j] == slots[j])
    ensures r.focus.Some? <==> Text.AllDigits(value) && value != "" && index < LastSlot
    ensures r.focus.Some? ==> r.focus.value == index + 1
    ensures WellFormed(slots) ==> WellFormed(r.slots)
  {
    if !Text.AllDigits(value) then Edit(slots, None)
    else
      var last := Text.LastChar(value);
      assert |value| > 0 ==> Text.IsDigit(value[|value| - 1]);
      Edit(slots[index := last], if value != "" && index < LastSlot then Some(index + 1) else None)
  }

  /** `handleKeyDown`: Backspace in an empty box after the first moves focus back one box. */
  function BackspaceFocus(slots: Slots, index: nat, isBackspace: bool): (focus: Option<nat>)
    requires index < |slots|
    ensures focus.Some? <==> isBackspace && slots[index] == "" && index > 0
    ensures focus.Some? ==> focus.value == index - 1
  {
    if isBackspace && slots[index] == "" && index > 0 then Some(index - 1) else None
  }

  /** The pasted text reduced to digits and cut to six (`.replace(/\D/g, '').slice(0, 6)`). */
  function PastedDigits(text: string): (d: string)
    ensures |d| <= SlotCount && Text.AllDigits(d)
    ensures |d| <= |Text.DigitsOnly(text)| && d == Text.DigitsOnly(text)[..|d|]
    ensures |d| < SlotCount ==> d == Text.DigitsOnly(text)
  {
    var all := Text.DigitsOnly(text);
    if |all| > SlotCount then all[..SlotCount] else all
  }

  /** `handlePaste`: the first `n` boxes take the `n` pasted digits one each,
      the later boxes keep their content, and focus goes to box `min(n, 5)`. */
  method HandlePaste(slots: Slots, text: string) returns (r: Slots, focus: nat)
    requires |slots| == SlotCount
    ensures |r| == SlotCount
    ensures forall i :: 0 <= i < |PastedDigits(text)| ==> r[i] == [PastedDigits(text)[i]]
    ensures forall i :: |PastedDigits(text)| <= i < SlotCount ==> r[i] == slots[i]
    ensures focus == if |PastedDigits(text)| < LastSlot then |PastedDigits(text)| else LastSlot
    ensures WellFormed(slots) ==> WellFormed(r)
  {
    var pasted := PastedDigits(text);
    r := slots;
    var i := 0;
    while i < |pasted|
      invariant 0 <= i <= |pasted|
      invariant |r| == SlotCount
      invariant forall j :: 0 <= j < i ==> r[j] == [pasted[j]]
      invariant forall j :: i <= j < SlotCount ==> r[j] == slots[j]
    {
      if i < SlotCount {
        r := r[i := [pasted[i]]];
      }
      i := i + 1;
    }
    focus := if |pasted| < LastSlot then |pasted| else LastSlot;
  }

  /** `handleResend`: the countdown restarts, resend is disabled again, every
      box is cleared and the first box is focused. */
  function Resend(s: OtpState): (r: Focused)
    ensures r.state.countdown == ResendSeconds && !r.state.canResend
    ensures WellFormed(r.state.slots) && forall i :: 0 <= i < |r.state.slots| ==> r.state.slots[i] == ""
    ensures r.focus == 0
  {
    Focused(OtpState(EmptySlots, ResendSeconds, false), 0)
  }

  /** One run of the countdown effect: a positive countdown drops by one
      second, a finished one enables resend. */
  function Tick(s: OtpState): (r: OtpState)
    ensures s.countdown > 0 ==> r == s.(countdown := s.countdown - 1)
    ensures s.countdown <= 0 ==> r == s.(canResend := true)
    ensures s.countdown >= 0 ==> r.countdown >= 0
  {
    if s.countdown > 0 then s.(countdown := s.countdown - 1) else s.(canResend := true)
  }

  function Ticks(s: OtpState, n: nat): OtpState
    decreases n
  {
    if n == 0 then s else Ticks(Tick(s), n - 1)
  }

  /** Starting from a non-negative countdown, `n` effect runs leave
      `max(0, countdown - n)` seconds, never go negative, keep the boxes, and
      enable resend once `n` exceeds the starting countdown. */
  lemma {:induction false} TicksCountDown(s: OtpState, n: nat)
    requires s.countdown >= 0
    ensures Ticks(s, n).countdown == if n <= s.countdown then s.countdown - n else 0
    ensures Ticks(s, n).slots == s.slots
    ensures n > s.countdown ==> Ticks(s, n).canResend
    ensures s.canResend ==> Ticks(s, n).canResend
    decreases n
  {
    if n > 0 {
      TicksCountDown(Tick(s), n - 1);
    }
  }

  /** After a resend, resend is enabled again after 61 runs of the effect
      (sixty one-second steps, then the run that sees zero), not before. */
  lemma ResendCycle(s: OtpState)
    ensures !Ticks(Resend(s).state, 60).canResend
    ensures Ticks(Resend(s).state, 61).canResend && Ticks(Resend(s).state, 61).countdown == 0
  {
    var r := Resend(s).state;
    TicksCountDown(r, 61);
    NoResendBeforeZero(r, 60);
  }

  lemma {:induction false} NoResendBeforeZero(s: OtpState, n: nat)
    requires !s.canResend && n <= s.countdown
    ensures !Ticks(s, n).canResend
    decreases n
  {
    if n > 0 {
      NoResendBeforeZero(Tick(s), n - 1);
    }
  }

  /** `isComplete`: every box is filled. On well-formed boxes that means
      every box holds exactly one digit. */
  function IsComplete(slots: Slots): (done: bool)
    ensures done && WellFormed(slots) ==>
      forall i :: 0 <= i < |slots| ==> |slots[i]| == 1 && Text.IsDigit(slots[i][0])
  {
    forall i :: 0 <= i < |slots| ==> slots[i] != ""
  }

  /** `otp.join('')`: the boxes read left to right as one code, which holds
      digits only when every box does. */
  function Join(slots: Slots): (code: string)
    ensures (forall i :: 0 <= i < |slots| ==> Text.AllDigits(slots[i])) ==> Text.AllDigits(code)
  {
    if |slots| == 0 then ""
    else
      var rest := Join(slots[1..]);
      assert (forall i :: 0 <= i < |slots| ==> Text.AllDigits(slots[i])) ==> Text.AllDigits(rest) by {
        if forall i :: 0 <= i < |slots| ==> Text.AllDigits(slots[i]) {
          assert forall i :: 0 <= i < |slots[1..]| ==> slots[1..][i] == slots[i + 1];
        }
      }
      slots[0] + rest
  }

  /** When every box holds at most one character, the joined code is as long
      as the number of boxes exactly when every box is filled. */
  lemma {:induction false} JoinLength(slots: Slots)
    requires forall i :: 0 <= i < |slots| ==> |slots[i]| <= 1
    ensures |Join(slots)| <= |slots|
    ensures |Join(slots)| == |slots| <==> IsComplete(slots)
    decreases |slots|
  {
    if |slots| > 0 {
      assert forall i :: 0 <= i < |slots[1..]| ==> slots[1..][i] == slots[i + 1];
      JoinLength(slots[1..]);
      if IsComplete(slots) {
        assert IsComplete(slots[1..]);
      }
      if IsComplete(slots[1..]) && slots[0] != "" {
        forall i | 0 <= i < |slots| ensures slots[i] != "" {
          if i > 0 { assert slots[i] == slots[1..][i - 1]; }
        }
      }
    }
  }

  /** `handleVerify`: with a six-character code, the login path signs in and
      goes to the dashboard, the sign-up path goes on to registration without
      signing in; a shorter code does nothing. */
  function Verify(s: Store, slots: Slots, fromLogin: bool): (r: Step)
    ensures |Join(slots)| != SlotCount ==> r == Step(s, None)
    ensures |Join(slots)| == SlotCount && fromLogin ==>
      r.store == s.(isAuthenticated := true) && r.next == Some(Dashboard)
    ensures |Join(slots)| == SlotCount && !fromLogin ==>
      r.store == s && r.next == Some(Register)
  {
    if |Join(slots)| == SlotCount then
      if fromLogin then Step(SetIsAuthenticated(s, true), Some(Dashboard))
      else Step(s, Some(Register))
    else Step(s, None)
  }

  /** The Verify button is enabled (`isComplete`) exactly when pressing it
      does something, and on the login path that is exactly when it signs in. */
  lemma VerifyGate(s: Store, slots: Slots, fromLogin: bool)
    requires WellFormed(slots)
    ensures Verify(s, slots, fromLogin).next.Some? <==> IsComplete(slots)
    ensures fromLogin && !s.isAuthenticated ==>
      (Verify(s, slots, fromLogin).store.isAuthenticated <==> IsComplete(slots))
  {
    JoinLength(slots);
  }
}

=== FILE: phone_input_screen.dfy ===
/** src/screens/auth/PhoneInputScreen.tsx: phone capture, the Continue gate
    and the country picker (the picker logic is the same on the login screen). */
module PhoneInputScreen {
  import opened Optional
  import opened AppTypes
  import opened Routes
  import opened AppContext
  import Text

  const MinPhoneLength: nat := 8

  /** The phone field's `onChange`: only the digits of the typed text are stored. */
  function EditPhone(s: Store, typed: string): (r: Store)
    ensures Text.AllDigits(r.phoneNumber)
    ensures r.phoneNumber == Text.DigitsOnly(typed)
    ensures Text.AllDigits(typed) ==> r.phoneNumber == typed
    ensures r.(phoneNumber := s.phoneNumber) == s
  {
    SetPhoneNumber(s, Text.DigitsOnly(typed))
  }

  /** `handleContinue`: go on to the code screen once eight or more digits are stored. */
  function Continue(phone: string): (next: Option<Route>)
    ensures next.Some? <==> |phone| >= MinPhoneLength
    ensures next.Some? ==> next.value == Otp(false)
  {
    if |phone| >= MinPhoneLength then Some(Otp(false)) else None
  }

  /** The Continue button's `disabled` flag. */
  function ContinueDisabled(phone: string): (disabled: bool)
    ensures disabled <==> Continue(phone).None?
  {
    |phone| < MinPhoneLength
  }

  /** The store together with whether the country picker sheet is open. */
  datatype PickerStep = PickerStep(store: Store, pickerOpen: bool)

  /** `selectCountry`: the chosen country becomes the selection and the picker closes. */
  function SelectCountry(s: Store, c: Country): (r: PickerStep)
    ensures r.store.selectedCountry == c && !r.pickerOpen
    ensures r.store.(selectedCountry := s.selectedCountry) == s
  {
    PickerStep(SetSelectedCountry(s, c), false)
  }

  /** A picker row is highlighted when its code is the selected country's
      code; for a selection taken from the list, that row is the selection. */
  function IsHighlighted(selected: Country, row: Country): (highlighted: bool)
    ensures highlighted && selected in Countries && row in Countries ==> row == selected
  {
    CodeIdentifiesCountry(selected, row);
    selected.code == row.code
  }

  /** After choosing row `k` of the list, that row and no other is highlighted. */
  lemma SelectHighlightsOneRow(s: Store, k: nat)
    requires k < |Countries|
    ensures forall i :: 0 <= i < |Countries| ==>
      (IsHighlighted(SelectCountry(s, Countries[k]).store.selectedCountry, Countries[i]) <==> i == k)
  {
    CountryCodesDistinct();
  }
}

=== FILE: register_screen.dfy ===
/** src/screens/auth/RegisterScreen.tsx: password rules, form validity and
    the two ways of creating the user record. */
module RegisterScreen {
  import opened Optional
  import opened AppTypes
  import opened Routes
  import opened AppContext
  import Text

  datatype RegisterForm = RegisterForm(
    firstName: string,
    lastName: string,
    email: string,
    password: string,
    confirmPassword: string,
    dateOfBirth: string)

  datatype Agreements = Agreements(privacy: bool, terms: bool, age: bool)

  /** One line of the password checklist shown under the password field;
      `text` is the source's `label`, a reserved word in Dafny. */
  datatype Criterion = Criterion(text: string, met: bool)

  const MinPasswordLength := 6

  predicate HasUppercase(pw: string) { Text.ContainsInRange(pw, 'A', 'Z') }
  predicate HasLowercase(pw: string) { Text.ContainsInRange(pw, 'a', 'z') }
  predicate HasDigit(pw: string) { Text.ContainsInRange(pw, '0', '9') }

  /** `validatePassword`: at least six characters, among them an ASCII
      capital, an ASCII small letter and a digit. */
  function ValidatePassword(pw: string): (ok: bool)
    ensures ok <==>
      |pw| >= MinPasswordLength &&
      (exists i :: 0 <= i < |pw| && 'A' <= pw[i] <= 'Z') &&
      (exists i :: 0 <= i < |pw| && 'a' <= pw[i] <= 'z') &&
      (exists i :: 0 <= i < |pw| && Text.IsDigit(pw[i]))
  {
    |pw| >= MinPasswordLength && HasUppercase(pw) && HasLowercase(pw) && HasDigit(pw)
  }

  /** `passwordCriteria`: the four checks, each evaluated on its own. */
  function PasswordCriteria(pw: string): (r: seq<Criterion>)
    ensures |r| == 4
    ensures r[0].met <==> |pw| >= MinPasswordLength
    ensures r[1].met <==> exists i :: 0 <= i < |pw| && 'A' <= pw[i] <= 'Z'
    ensures r[2].met <==> exists i :: 0 <= i < |pw| && 'a' <= pw[i] <= 'z'
    ensures r[3].met <==> exists i :: 0 <= i < |pw| && Text.IsDigit(pw[i])
  {
    [
      Criterion("At least 6 characters", |pw| >= MinPasswordLength),
      Criterion("Uppercase letter", HasUppercase(pw)),
      Criterion("Lowercase letter", HasLowercase(pw)),
      Criterion("Number", HasDigit(pw))
    ]
  }

  /** The checklist is all green exactly when the password is accepted. */
  lemma CriteriaMatchValidation(pw: string)
    ensures (forall i :: 0 <= i < |PasswordCriteria(pw)| ==> PasswordCriteria(pw)[i].met)
        <==> ValidatePassword(pw)
  {
    var c := PasswordCriteria(pw);
    if ValidatePassword(pw) {
      forall i | 0 <= i < |c| ensures c[i].met {
      }
    } else {
      assert !c[0].met || !c[1].met || !c[2].met || !c[3].met;
    }
  }

  /** The privacy, terms and age boxes are all ticked. */
  function AllAgreed(a: Agreements): (ok: bool)
    ensures ok <==> a == Agreements(true, true, true)
  {
    a.privacy && a.terms && a.age
  }

  /** `isFormValid`: both names, an accepted password repeated identically, a
      date of birth, and all three boxes ticked. The email is optional. */
  function IsFormValid(f: RegisterForm, a: Agreements): (ok: bool)
    ensures ok ==> ValidatePassword(f.confirmPassword) && !MismatchShown(f)
    ensures ok <==>
      f.firstName != "" && f.lastName != "" && ValidatePassword(f.password) &&
      f.password == f.confirmPassword && f.dateOfBirth != "" && AllAgreed(a)
  {
    f.firstName != "" && f.lastName != "" && ValidatePassword(f.password) &&
    f.password == f.confirmPassword && f.dateOfBirth != "" && AllAgreed(a)
  }

  /** The "Passwords don't match" message: a confirmation has been typed and
      it differs from the password. */
  function MismatchShown(f: RegisterForm): (shown: bool)
    ensures shown <==> |f.confirmPassword| > 0 && f.password != f.confirmPassword
  {
    f.confirmPassword != "" && f.password != f.confirmPassword
  }

  /** The full phone number: the selected country's dial code, then the
      digits entered. With a well-formed dial code and a digits-only number it
      is an international number: "+" followed by digits only. */
  function FullPhone(s: Store): (phone: string)
    ensures |phone| == |s.selectedCountry.dialCode| + |s.phoneNumber|
    ensures phone[..|s.selectedCountry.dialCode|] == s.selectedCountry.dialCode
    ensures phone[|s.selectedCountry.dialCode|..] == s.phoneNumber
    ensures WellFormedDialCode(s.selectedCountry.dialCode) && Text.AllDigits(s.phoneNumber) ==>
      phone[0] == '+' && Text.AllDigits(phone[1..])
  {
    var dial := s.selectedCountry.dialCode;
    var phone := dial + s.phoneNumber;
    assert WellFormedDialCode(dial) && Text.AllDigits(s.phoneNumber) ==> Text.AllDigits(phone[1..]) by {
      if WellFormedDialCode(dial) && Text.AllDigits(s.phoneNumber) {
        forall k | 0 <= k < |phone| - 1 ensures Text.IsDigit(phone[1..][k]) {
          if k + 1 < |dial| {
            assert phone[1..][k] == dial[1..][k];
          } else {
            assert phone[1..][k] == s.phoneNumber[k + 1 - |dial|];
          }
        }
      }
    }
    phone
  }

  /** `handleSubmit`: an invalid form changes nothing; a valid one installs a
      new user built from the form and signs in. */
  function Submit(s: Store, f: RegisterForm, a: Agreements): (r: Step)
    ensures !IsFormValid(f, a) ==> r == Step(s, None)
    ensures IsFormValid(f, a) ==>
      && r.next == Some(Dashboard)
      && r.store.isAuthenticated
      && r.store.user.Some?
      && r.store.user.value.firstName == f.firstName
      && r.store.user.value.lastName == f.lastName
      && r.store.user.value.phone == s.selectedCountry.dialCode + s.phoneNumber
      && r.store.user.value.email == (if f.email == "" then None else Some(f.email))
      && r.store.user.value.dateOfBirth == Some(f.dateOfBirth)
      && r.store.user.value.avatar.None? && r.store.user.value.address.None?
      && r.store.cart == s.cart
      && r.store.selectedCountry == s.selectedCountry
      && r.store.phoneNumber == s.phoneNumber
  {
    if IsFormValid(f, a) then
      var u := User(f.firstName, f.lastName, FullPhone(s),
                    if f.email == "" then None else Some(f.email),
                    Some(f.dateOfBirth), None, None);
      Step(SetIsAuthenticated(SetUser(s, Some(u)), true), Some(Dashboard))
    else
      Step(s, None)
  }

  /** `handleGoogleSignUp`: gated on the agreements alone; installs the fixed
      placeholder Google user with the entered phone number and signs in. */
  function GoogleSignUp(s: Store, a: Agreements): (r: Step)
    ensures !AllAgreed(a) ==> r == Step(s, None)
    ensures AllAgreed(a) ==>
      && r.next == Some(Dashboard)
      && r.store.isAuthenticated
      && r.store.user == Some(User("Google", "User", s.selectedCountry.dialCode + s.phoneNumber,
                                   Some("user@gmail.com"), None, None, None))
      && r.store.cart == s.cart
      && r.store.selectedCountry == s.selectedCountry
      && r.store.phoneNumber == s.phoneNumber
  {
    if AllAgreed(a) then
      var u := User("Google", "User", FullPhone(s), Some("user@gmail.com"), None, None, None);
      Step(SetIsAuthenticated(SetUser(s, Some(u)), true), Some(Dashboard))
    else
      Step(s, None)
  }

  /** Google sign-up does not look at the form: with the boxes ticked it
      succeeds even when the form could not be submitted, and ticking the
      boxes is necessary for both paths. */
  lemma GoogleIgnoresForm(s: Store, f: RegisterForm, a: Agreements)
    ensures IsFormValid(f, a) ==> GoogleSignUp(s, a).store.isAuthenticated
    ensures !AllAgreed(a) ==> Submit(s, f, a) == GoogleSignUp(s, a) == Step(s, None)
  {
  }
}

=== FILE: routes.dfy ===
/** The screens a handler can navigate to (the router table of src/App.tsx).
    Only the destinations some modelled handler names are listed. */
module Routes {

  datatype Route =
    | Splash               // "/"
    | Otp(fromLogin: bool) // "/auth/otp", with `state.fromLogin`
    | Register             // "/auth/register"
    | Dashboard            // "/dashboard"
}

=== FILE: shopping_cart.dfy ===
/** The cart half of src/contexts/AppContext.tsx: the updater functions that
    `addToCart`, `removeFromCart`, `updateCartQuantity` and `clearCart` pass
    to `setCart`, and the derived `cartCount`. Each is a pure transition from
    the previous line sequence to the next one. */
module ShoppingCart {
  import opened AppTypes

  type Cart = seq<CartItem>

  predicate HasLine(cart: Cart, id: string) {
    exists i :: 0 <= i < |cart| && cart[i].Id() == id
  }

  /** At most one line per product id. */
  predicate UniqueIds(cart: Cart) {
    forall i, j :: 0 <= i < j < |cart| ==> cart[i].Id() != cart[j].Id()
  }

  predicate PositiveQuantities(cart: Cart) {
    forall i :: 0 <= i < |cart| ==> cart[i].quantity >= 1
  }

  /** The store invariant on the cart. */
  predicate Valid(cart: Cart) {
    UniqueIds(cart) && PositiveQuantities(cart)
  }

  /** The `prev.map(...)` of `addToCart`: every line carrying `id` gains one
      unit, keeping its own product fields; other lines are untouched. */
  function IncrementLines(cart: Cart, id: string): (r: Cart)
    ensures |r| == |cart|
    ensures forall i :: 0 <= i < |cart| ==>
      r[i].product == cart[i].product &&
      r[i].quantity == (if cart[i].Id() == id then cart[i].quantity + 1 else cart[i].quantity)
  {
    if |cart| == 0 then []
    else
      var head := if cart[0].Id() == id then cart[0].(quantity := cart[0].quantity + 1) else cart[0];
      [head] + IncrementLines(cart[1..], id)
  }

  /** `addToCart(product)`: bump the existing line of that id, or append a new
      line of quantity 1 at the end. */
  function AddToCart(cart: Cart, p: Product): (r: Cart)
    ensures HasLine(r, p.id)
    ensures HasLine(cart, p.id) ==>
      |r| == |cart| &&
      forall i :: 0 <= i < |cart| ==>
        r[i].product == cart[i].product &&
        r[i].quantity == (if cart[i].Id() == p.id then cart[i].quantity + 1 else cart[i].quantity)
    ensures !HasLine(cart, p.id) ==>
      |r| == |cart| + 1 && r[..|cart|] == cart && r[|cart|] == CartItem(p, 1)
  {
    if HasLine(cart, p.id) then IncrementLines(cart, p.id)
    else
      var r := cart + [CartItem(p, 1)];
      assert r[|cart|].Id() == p.id;
      r
  }

  /** `prev.filter(item => item.id !== productId)`. */
  function RemoveFromCart(cart: Cart, id: string): (r: Cart)
    ensures !HasLine(r, id)
    ensures forall l :: l in r <==> l in cart && l.Id() != id
    ensures |r| <= |cart|
    ensures !HasLine(cart, id) ==> r == cart
  {
    if |cart| == 0 then []
    else if cart[0].Id() == id then RemoveFromCart(cart[1..], id)
    else
      var rest := RemoveFromCart(cart[1..], id);
      assert !HasLine(cart, id) ==> !HasLine(cart[1..], id) by {
        if HasLine(cart[1..], id) {
          var i :| 0 <= i < |cart[1..]| && cart[1..][i].Id() == id;
          assert cart[i + 1].Id() == id;
        }
      }
      assert forall l :: l in cart <==> l == cart[0] || l in cart[1..];
      [cart[0]] + rest
  }

  /** The `prev.map(...)` of `updateCartQuantity` for a positive quantity:
      every line carrying `id` gets quantity `q`, other lines are untouched. */
  function SetQuantity(cart: Cart, id: string, q: int): (r: Cart)
    ensures |r| == |cart|
    ensures forall i :: 0 <= i < |cart| ==>
      r[i].product == cart[i].product &&
      r[i].quantity == (if cart[i].Id() == id then q else cart[i].quantity)
  {
    if |cart| == 0 then []
    else
      var head := if cart[0].Id() == id then cart[0].(quantity := q) else cart[0];
      [head] + SetQuantity(cart[1..], id, q)
  }

  /** `updateCartQuantity(productId, quantity)`: a quantity of zero or less
      removes the line; a positive one overwrites the quantity of the line(s)
      with that id and never adds a line. */
  function UpdateCartQuantity(cart: Cart, id: string, q: int): (r: Cart)
    ensures q <= 0 ==> r == RemoveFromCart(cart, id)
    ensures q > 0 ==>
      |r| == |cart| &&
      forall i :: 0 <= i < |cart| ==>
        r[i].product == cart[i].product &&
        r[i].quantity == (if cart[i].Id() == id then q else cart[i].quantity)
    ensures q > 0 && !HasLine(cart, id) ==> r == cart
  {
    if q <= 0 then RemoveFromCart(cart, id) else SetQuantity(cart, id, q)
  }

  /** `clearCart()`: the cart becomes empty whatever it held. */
  function ClearCart(cart: Cart): (r: Cart)
    ensures |r| == 0
    ensures Valid(r) && CartCount(r) == 0
  {
    []
  }

  /** `cart.reduce((sum, item) => sum + item.quantity, 0)`. With positive
      quantities the count is at least the number of lines, so it is zero
      exactly for the empty cart. */
  function CartCount(cart: Cart): (n: int)
    ensures PositiveQuantities(cart) ==> n >= |cart|
  {
    if |cart| == 0 then 0
    else
      assert PositiveQuantities(cart) ==> PositiveQuantities(cart[1..]) by {
        if PositiveQuantities(cart) {
          forall i | 0 <= i < |cart[1..]| ensures cart[1..][i].quantity >= 1 {
            assert cart[1..][i] == cart[i + 1];
          }
        }
      }
      cart[0].quantity + CartCount(cart[1..])
  }

  // ---------------------------------------------------------------------------
  // Count arithmetic

  lemma {:induction false} CartCountAppend(a: Cart, b: Cart)
    ensures CartCount(a + b) == CartCount(a) + CartCount(b)
    decreases |a|
  {
    if |a| == 0 {
      assert a + b == b;
    } else {
      assert (a + b)[1..] == a[1..] + b;
      CartCountAppend(a[1..], b);
    }
  }

  /** Replacing one line changes the count by the difference of the quantities. */
  lemma {:induction false} CartCountReplace(cart: Cart, k: nat, line: CartItem)
    requires k < |cart|
    ensures CartCount(cart[k := line]) == CartCount(cart) - cart[k].quantity + line.quantity
    decreases k
  {
    if k > 0 {
      assert cart[k := line][1..] == cart[1..][k - 1 := line];
      CartCountReplace(cart[1..], k - 1, line);
    } else {
      assert cart[k := line][1..] == cart[1..];
    }
  }

  /** Dropping line `k` lowers the count by its quantity. */
  lemma {:induction false} CartCountDrop(cart: Cart, k: nat)
    requires k < |cart|
    ensures CartCount(cart[..k] + cart[k + 1..]) == CartCount(cart) - cart[k].quantity
    decreases k
  {
    var dropped := cart[..k] + cart[k + 1..];
    if k == 0 {
      assert dropped == cart[1..];
    } else {
      CartCountDrop(cart[1..], k - 1);
      assert dropped[0] == cart[0];
      assert dropped[1..] == cart[1..][..k - 1] + cart[1..][k..];
    }
  }

  // ---------------------------------------------------------------------------
  // addToCart

  /** With unique ids, adding a present product bumps exactly that line by one. */
  lemma AddToCartExisting(cart: Cart, p: Product, k: nat)
    requires UniqueIds(cart)
    requires k < |cart| && cart[k].Id() == p.id
    ensures AddToCart(cart, p) == cart[k := cart[k].(quantity := cart[k].quantity + 1)]
  {
    var r := AddToCart(cart, p);
    var expected := cart[k := cart[k].(quantity := cart[k].quantity + 1)];
    assert HasLine(cart, p.id);
    forall i | 0 <= i < |cart| ensures r[i] == expected[i] {
      if i != k {
        assert cart[i].Id() != p.id;
      }
    }
  }

  /** Adding an absent product appends one line of quantity 1 at the end. */
  lemma AddToCartAbsent(cart: Cart, p: Product)
    requires !HasLine(cart, p.id)
    ensures AddToCart(cart, p) == cart + [CartItem(p, 1)]
  {
  }

  /** `addToCart` keeps at most one line per id and every quantity positive. */
  lemma AddToCartValid(cart: Cart, p: Product)
    requires Valid(cart)
    ensures Valid(AddToCart(cart, p))
  {
    var r := AddToCart(cart, p);
    if !HasLine(cart, p.id) {
      forall i, j | 0 <= i < j < |r| ensures r[i].Id() != r[j].Id() {
        if j == |cart| {
          assert r[i] == cart[i];
        } else {
          assert r[i] == cart[i] && r[j] == cart[j];
        }
      }
    }
  }

  /** On a cart with unique ids, `addToCart` raises `cartCount` by exactly one. */
  lemma AddToCartCount(cart: Cart, p: Product)
    requires UniqueIds(cart)
    ensures CartCount(AddToCart(cart, p)) == CartCount(cart) + 1
  {
    if HasLine(cart, p.id) {
      var k :| 0 <= k < |cart| && cart[k].Id() == p.id;
      AddToCartExisting(cart, p, k);
      CartCountReplace(cart, k, cart[k].(quantity := cart[k].quantity + 1));
    } else {
      CartCountAppend(cart, [CartItem(p, 1)]);
      assert [CartItem(p, 1)][1..] == [];
    }
  }

  /** Adding the same product twice to an empty cart gives one line of quantity 2. */
  lemma AddTwiceFromEmpty(p: Product)
    ensures AddToCart(AddToCart([], p), p) == [CartItem(p, 2)]
    ensures CartCount(AddToCart(AddToCart([], p), p)) == 2
  {
    AddToCartExisting([CartItem(p, 1)], p, 0);
  }

  // ---------------------------------------------------------------------------
  // removeFromCart

  /** With unique ids, removing the id of line `k` removes exactly that line. */
  lemma {:induction false} RemoveLine(cart: Cart, k: nat)
    requires UniqueIds(cart)
    requires k < |cart|
    ensures RemoveFromCart(cart, cart[k].Id()) == cart[..k] + cart[k + 1..]
    decreases k
  {
    var id := cart[k].Id();
    if k == 0 {
      assert !HasLine(cart[1..], id) by {
        forall i | 0 <= i < |cart[1..]| ensures cart[1..][i].Id() != id {
          assert cart[1..][i] == cart[i + 1];
        }
      }
    } else {
      assert cart[0].Id() != id;
      assert UniqueIds(cart[1..]) by {
        forall i, j | 0 <= i < j < |cart[1..]| ensures cart[1..][i].Id() != cart[1..][j].Id() {
          assert cart[1..][i] == cart[i + 1] && cart[1..][j] == cart[j + 1];
        }
      }
      assert cart[1..][k - 1] == cart[k];
      RemoveLine(cart[1..], k - 1);
      assert cart[..k] == [cart[0]] + cart[1..][..k - 1];
      assert cart[k + 1..] == cart[1..][k..];
    }
  }

  /** A cart without a line of that id is returned unchanged. */
  lemma RemoveAbsent(cart: Cart, id: string)
    requires !HasLine(cart, id)
    ensures RemoveFromCart(cart, id) == cart
  {
  }

  /** Removal distributes over concatenation: the kept lines stay in order. */
  lemma {:induction false} RemoveAppend(a: Cart, b: Cart, id: string)
    ensures RemoveFromCart(a + b, id) == RemoveFromCart(a, id) + RemoveFromCart(b, id)
    decreases |a|
  {
    if |a| == 0 {
      assert a + b == b;
    } else {
      assert (a + b)[1..] == a[1..] + b;
      RemoveAppend(a[1..], b, id);
    }
  }

  /** Removal keeps the cart invariant. */
  lemma RemoveValid(cart: Cart, id: string)
    requires Valid(cart)
    ensures Valid(RemoveFromCart(cart, id))
  {
    if HasLine(cart, id) {
      var k :| 0 <= k < |cart| && cart[k].Id() == id;
      RemoveLine(cart, k);
      var r := cart[..k] + cart[k + 1..];
      forall i | 0 <= i < |r| ensures r[i] == cart[if i < k then i else i + 1] {
      }
    }
  }

  /** With unique ids, removing line `k` lowers `cartCount` by its quantity. */
  lemma RemoveLineCount(cart: Cart, k: nat)
    requires UniqueIds(cart)
    requires k < |cart|
    ensures CartCount(RemoveFromCart(cart, cart[k].Id())) == CartCount(cart) - cart[k].quantity
  {
    RemoveLine(cart, k);
    CartCountDrop(cart, k);
  }

  // ---------------------------------------------------------------------------
  // updateCartQuantity

  /** With unique ids, a positive update of line `k` changes only that quantity. */
  lemma UpdateLine(cart: Cart, k: nat, q: int)
    requires UniqueIds(cart)
    requires k < |cart| && q > 0
    ensures UpdateCartQuantity(cart, cart[k].Id(), q) == cart[k := cart[k].(quantity := q)]
    ensures CartCount(UpdateCartQuantity(cart, cart[k].Id(), q)) == CartCount(cart) - cart[k].quantity + q
  {
    var r := UpdateCartQuantity(cart, cart[k].Id(), q);
    var expected := cart[k := cart[k].(quantity := q)];
    forall i | 0 <= i < |cart| ensures r[i] == expected[i] {
      if i != k {
        assert cart[i].Id() != cart[k].Id();
      }
    }
    CartCountReplace(cart, k, cart[k].(quantity := q));
  }

  /** `updateCartQuantity` keeps the cart invariant for every quantity. */
  lemma UpdateValid(cart: Cart, id: string, q: int)
    requires Valid(cart)
    ensures Valid(UpdateCartQuantity(cart, id, q))
  {
    if q <= 0 {
      RemoveValid(cart, id);
    }
  }
}

=== FILE: text.dfy ===
/** Character classes and string helpers that the screens use through
    JavaScript regular expressions and `String.prototype` methods. A Dafny
    `string` is a sequence of Unicode scalar values, while a JavaScript string
    is a sequence of UTF-16 code units; the two agree on lengths and indices
    for text inside the Basic Multilingual Plane, and a character outside it
    counts once here where JavaScript counts two units. */
module Text {

  /** `\d` in a regular expression without the `u` flag: an ASCII digit. */
  predicate IsDigit(c: char) {
    '0' <= c <= '9'
  }

  predicate AllDigits(s: string) {
    forall i :: 0 <= i < |s| ==> IsDigit(s[i])
  }

  /** `s.replace(/\D/g, '')`: every non-digit dropped, the digits kept in order. */
  function DigitsOnly(s: string): (r: string)
    ensures AllDigits(r)
    ensures |r| <= |s|
    ensures forall c :: c in r <==> c in s && IsDigit(c)
    ensures AllDigits(s) ==> r == s
  {
    if |s| == 0 then ""
    else if IsDigit(s[0]) then [s[0]] + DigitsOnly(s[1..])
    else DigitsOnly(s[1..])
  }

  /** Filtering digits distributes over concatenation, so the digits of a
      string appear in the result in their original order. */
  lemma {:induction false} DigitsOnlyAppend(a: string, b: string)
    ensures DigitsOnly(a + b) == DigitsOnly(a) + DigitsOnly(b)
    decreases |a|
  {
    if |a| == 0 {
      assert a + b == b;
    } else {
      assert (a + b)[1..] == a[1..] + b;
      DigitsOnlyAppend(a[1..], b);
    }
  }

  /** `/[lo-hi]/.test(s)`: some character of `s` lies in the range `lo..hi`. */
  function ContainsInRange(s: string, lo: char, hi: char): (r: bool)
    ensures r <==> exists i :: 0 <= i < |s| && lo <= s[i] <= hi
  {
    if |s| == 0 then false
    else if lo <= s[0] <= hi then true
    else
      var rest := ContainsInRange(s[1..], lo, hi);
      assert rest <==> exists i :: 1 <= i < |s| && lo <= s[i] <= hi by {
        if rest {
          var i :| 0 <= i < |s[1..]| && lo <= s[1..][i] <= hi;
          assert lo <= s[i + 1] <= hi;
        }
      }
      rest
  }

  /** `value.slice(-1)`: the last character, or "" for the empty string. */
  function LastChar(s: string): (r: string)
    ensures |s| == 0 ==> r == ""
    ensures |s| > 0 ==> |r| == 1 && r[0] == s[|s| - 1]
  {
    if |s| == 0 then "" else s[|s| - 1..]
  }

  /** The characters `String.prototype.trim` strips: the WhiteSpace and
      LineTerminator productions of ECMAScript (tab, line feed, vertical tab,
      form feed, carriage return, the Unicode space separators, the line and
      paragraph separators, and the byte order mark). */
  predicate IsWhitespace(c: char) {
    var n := c as int;
    || (0x09 <= n <= 0x0D)
    || n == 0x20 || n == 0xA0 || n == 0x1680
    || (0x2000 <= n <= 0x200A)
    || n == 0x2028 || n == 0x2029 || n == 0x202F || n == 0x205F
    || n == 0x3000 || n == 0xFEFF
  }

  predicate AllWhitespace(s: string) {
    forall i :: 0 <= i < |s| ==> IsWhitespace(s[i])
  }

  /** `s.trimStart()`: the longest suffix of `s` that does not start with whitespace. */
  function TrimStart(s: string): (r: string)
    ensures |r| <= |s| && r == s[|s| - |r|..]
    ensures forall k :: 0 <= k < |s| - |r| ==> IsWhitespace(s[k])
    ensures |r| > 0 ==> !IsWhitespace(r[0])
  {
    if |s| > 0 && IsWhitespace(s[0]) then TrimStart(s[1..]) else s
  }

  /** `s.trimEnd()`: the longest prefix of `s` that does not end with whitespace. */
  function TrimEnd(s: string): (r: string)
    ensures |r| <= |s| && r == s[..|r|]
    ensures forall k :: |r| <= k < |s| ==> IsWhitespace(s[k])
    ensures |r| > 0 ==> !IsWhitespace(r[|r| - 1])
  {
    if |s| > 0 && IsWhitespace(s[|s| - 1]) then TrimEnd(s[..|s| - 1]) else s
  }

  /** `r` is the slice `s[a..b]`, and everything outside it is whitespace. */
  predicate MiddleAt(s: string, r: string, a: int, b: int) {
    0 <= a <= b <= |s| && r == s[a..b] && AllWhitespace(s[..a]) && AllWhitespace(s[b..])
  }

  /** Trimming both ends leaves a middle slice of `s` with whitespace only
      outside it. */
  lemma TrimMiddle(s: string)
    ensures exists a, b :: MiddleAt(s, TrimEnd(TrimStart(s)), a, b)
  {
    var t := TrimStart(s);
    var r := TrimEnd(t);
    TrimStartCut(s);
    TrimEndCut(t);
    PrefixOfSuffix(s, t, r);
  }

  /** A prefix `r` of a suffix `t` of `s`, where `s` has only whitespace
      before `t` and `t` only whitespace after `r`, is the middle of `s`. */
  lemma PrefixOfSuffix(s: string, t: string, r: string)
    requires |t| <= |s| && t == s[|s| - |t|..] && AllWhitespace(s[..|s| - |t|])
    requires |r| <= |t| && r == t[..|r|] && AllWhitespace(t[|r|..])
    ensures MiddleAt(s, r, |s| - |t|, |s| - |t| + |r|)
  {
    assert s[|s| - |t| + |r|..] == t[|r|..];
  }

  /** What `trimStart` cuts off is all whitespace. */
  lemma TrimStartCut(s: string)
    ensures AllWhitespace(s[..|s| - |TrimStart(s)|])
  {
    var a := |s| - |TrimStart(s)|;
    forall k | 0 <= k < a ensures IsWhitespace(s[..a][k]) {
      assert s[..a][k] == s[k];
    }
  }

  /** What `trimEnd` cuts off is all whitespace. */
  lemma TrimEndCut(t: string)
    ensures AllWhitespace(t[|TrimEnd(t)|..])
  {
    var b := |TrimEnd(t)|;
    forall k | 0 <= k < |t| - b ensures IsWhitespace(t[b..][k]) {
      assert t[b..][k] == t[b + k];
    }
  }

  /** Trimming both ends leaves nothing exactly when `s` is all whitespace. */
  lemma TrimEmpty(s: string)
    ensures |TrimEnd(TrimStart(s))| == 0 <==> AllWhitespace(s)
  {
    var t := TrimStart(s);
    var r := TrimEnd(t);
    var a := |s| - |t|;
    if |r| == 0 {
      assert |t| == 0;
    }
  }

  /** `s.trim()`: the middle of `s` left once whitespace is cut from both
      ends. It is empty exactly when `s` is all whitespace, otherwise free of
      whitespace at both ends, and the identity on strings already trimmed. */
  function Trim(s: string): (r: string)
    ensures exists a, b :: MiddleAt(s, r, a, b)
    ensures |r| == 0 <==> AllWhitespace(s)
    ensures |r| > 0 ==> !IsWhitespace(r[0]) && !IsWhitespace(r[|r| - 1])
    ensures (|s| == 0 || (!IsWhitespace(s[0]) && !IsWhitespace(s[|s| - 1]))) ==> r == s
  {
    var t := TrimStart(s);
    var r := TrimEnd(t);
    assert |r| > 0 ==> r[0] == t[0];
    TrimMiddle(s);
    TrimEmpty(s);
    r
  }
}
